=== FILE: README.md ===
# Hermes messaging management service: token authentication, in Dafny

This project models the authentication core of the Hermes messaging management
service. `CheckAuthentication` takes a bearer token and turns it into MQTT
credentials for the VerneMQ broker. It reconciles two Redis key families:

- `session:{token}` holds the internal user id of a token.
- `mapping:{originalUserID}` is a hash with the fields `token` and
  `internalHermesUserID`. It maps the identity provider's user id to the
  current token and the internal id.

The call is modelled as a pure transition
`(store, token, endpoint reply, fresh id, outages) -> (credentials or error, store')`:

- The store is a map from key to `Str(bytes)` or `Hash(fields)`.
- The Redis commands of `RedisInterface` are pure functions over that map, with
  Redis semantics:
  - GET and HGET of a missing key are errors that return no data.
  - GET of a hash and HGET or HSET of a plain string fail with WRONGTYPE.
  - RENAME of a missing key fails. Otherwise it moves the value and overwrites
    the destination.
  - SET overwrites; HSET creates the hash if needed.
- The authentication endpoint's answer is an input: a failed request, or a
  status with a body that either decodes to `{"userID": ...}` or does not.
- The UUID drawn for a new user is an input (`freshId`).
- `outages` names the store commands of the call that fail in transport, each
  with its error text.

Strings are byte strings: one `char` stands for one byte, as Go's `len` and
slicing count them.

Modules:
- `Wrappers`: Option and Result.
- `Redis`: the store and the `RedisInterface` operations.
- `VerneMQ`: the ACL and credential records, plus MQTT topic-filter matching
  (section 4.7 of MQTT 3.1.1). The matching says what the ACL entries grant.
- `Auth`: `CheckAuthentication`, its phases and the paths through one call.
- `AuthInvariant`: the well-formedness of the two key families, kept by every
  successful call, and idempotence of a repeated call.
- `AuthIntended`: the rotation as the doc comment describes it (see Findings).

Facts about the code that shape the model:
- The password returned is the token itself. No hash is computed
  (auth/auth.go:42,136; models/vernemqacl.go:38-45).
- Status 400 and every other status except 200 give "Invalid Token"
  (auth/auth.go:71-73,141).
- The decode error of a 200 body is ignored. A body that does not decode goes
  on with the user id "", so the key `mapping:` is used (auth/auth.go:83-87).
- The error of the HGET on the mapping is ignored. A failed HGET is treated as
  "no token recorded" (auth/auth.go:87-90).
- The error of the GET on the session is ignored. Any failed GET is treated as a
  cache miss (auth/auth.go:39-43).
- The call writes only to the store. It keeps no other record of whether the
  answer came from the cache or from a rotation.
- After a rotation the code still draws a fresh id (see Findings).

## Model

| member | source | states |
|---|---|---|
| Redis.Get | models/redis.go:52-61 | GET succeeds exactly when the key holds a plain string, and then returns its bytes. A missing key, a hash or a transport failure gives an error naming the key, with no data. |
| Redis.HGet | models/redis.go:63-72 | HGET succeeds exactly when the key holds a hash that has the field, and then returns the field's value. Otherwise it gives an error with no data: nil reply, WRONGTYPE or transport. |
| Redis.Set | models/redis.go:87-98 | SET fails only in transport. On success the key holds exactly the new string and nothing else changes. On failure the store is unchanged and the message shows the truncated value. |
| Redis.HSet | models/redis.go:74-85 | HSET succeeds unless the link is down or the key holds a plain string (WRONGTYPE). On success it adds or overwrites one field and keeps the others. On failure the store is unchanged. |
| Redis.Shown | models/redis.go:78-81 | A value of at most 15 bytes is shown unchanged. A longer value is shown as its first 12 bytes followed by "...", exactly 15 bytes long. The shown text equals the value iff the value has at most 15 bytes. |
| Redis.Rename | models/redis.go:100-107 | RENAME succeeds iff the link is up and the old key exists. On success the value moves to the new key, the old key is gone (when the keys differ) and no other key changes. On failure the store is unchanged and the error names both keys. |
| Redis.Exists | models/redis.go:109-116 | Without an error, the boolean is true iff the key is present. With an error, the boolean is false. |
| Redis.Delete | models/redis.go:118-127 | On success the key is absent afterwards and nothing else changes. On a transport failure the store is unchanged and the client error is returned unwrapped. |
| Redis.GetAfterSet | models/redis.go:87-98 | A GET after a SET reads back the value written. A GET of any other key reads what it read before. |
| Redis.HGetAfterHSet | models/redis.go:74-85 | An HGET after a successful HSET reads back the field written. The hash's other fields read as before. |
| Redis.GetAfterRename | models/redis.go:100-107 | After a successful RENAME, the new key reads what the old key read. When the keys differ, the old key no longer exists. |
| Redis.ExistsAfterDelete | models/redis.go:118-127 | After DEL the key does not exist, and a GET of it is the nil-reply error. |
| Redis.FirstTerminal | models/redis.go:143-145 | Finds the reply that ends the scan: the first one that failed or returned cursor 0. Every earlier reply is a page with a non-zero cursor. |
| Redis.GetKeys | models/redis.go:129-149 | The result is all keys of the pages up to and including the ending reply, in order. It carries an error iff the ending reply is a failed SCAN. The error names the pattern. |
| VerneMQ.NewVerneMQACL | models/vernemqacl.go:26-35 | Mountpoint is "". Client id, username and password are copied unchanged. The subscribe list is exactly ["conversations/private/" + clientID]. The publish list is exactly ["conversations/private/+"], whatever the arguments. |
| VerneMQ.NewMQTTAuthInfos | models/vernemqacl.go:38-45 | The client id is also the username, and the token is the password, untransformed. |
| VerneMQ.PublishReachesEveryPrivateTopic | models/vernemqacl.go:33 | The publish entry matches a peer's private conversation topic iff the peer id contains no '/'. So every client may publish to every single-level private topic. |
| VerneMQ.SubscribeOnlyOwnPrivateTopic | models/vernemqacl.go:32 | For a client id that is one plain level, the subscribe entry matches a private topic iff it is the client's own. |
| VerneMQ.NoGroupTopicGranted | models/vernemqacl.go:3-6 | Neither ACL entry matches any group conversation topic. |
| Auth.Provision | auth/auth.go:109-138 | The provisioning writes succeed iff none of the three commands fails in transport and the mapping key does not hold a plain string. On success the result is the fresh id with the token as password. |
| Auth.ProvisionWrites | auth/auth.go:111-133 | After successful provisioning the store is the old store plus `session:{token}` = fresh id and the mapping's `token` and `internalHermesUserID` fields. The mapping's other fields are kept. |
| Auth.Reconcile | auth/auth.go:86-138 | A successful reconciliation returns the fresh id, and `session:{token}` then resolves to it. |
| Auth.Front | auth/auth.go:33-80 | The call reaches reconciliation iff the token is non-empty, the session GET failed and the endpoint answered 200. The user id is then the decoded one. Every other way out leaves the store unchanged. |
| Auth.CheckAuthentication | auth/auth.go:31-142 | An empty token gives "No Token Provided" with the store untouched. When the session GET does not fail in transport, a cached session gives clientID = username = the cached id and password = token, with the store unchanged. After a miss, a failed request returns its error and every status but 200 gives "Invalid Token", both with the store unchanged. A success leaves `session:{token}` resolving to the returned id. Only `session:{token}`, the mapping and the session of the mapping's token are ever written. |
| Auth.ReconcileFrame | auth/auth.go:86-133 | Reconciliation changes no key besides the token's session, the mapping and the session of the mapping's old token. |
| Auth.VerifierOnlyAfterMiss | auth/auth.go:38-46 | Unless the session lookup misses, the outcome does not depend on the endpoint's reply or on the fresh id. The endpoint is not consulted and no id is drawn. |
| Auth.UndecodableBodyIsEmptyUserID | auth/auth.go:83-87 | A 200 body that does not decode behaves exactly like user id "", so the key `mapping:` is used. |
| Auth.ProvisionPath | auth/auth.go:87-138 | If the mapping records no token (or the HGET fails) and the writes succeed, the result is the fresh id. Afterwards `session:{token}` = fresh id, `mapping:{uid}.token` = token and `mapping:{uid}.internalHermesUserID` = fresh id. |
| Auth.RotateThenProvision | auth/auth.go:90-133 | The rotation branch followed by provisioning comes to: remove the old token's session, then apply the provisioning writes. |
| Auth.RotationPath | auth/auth.go:90-136 | When no store command after the session GET fails, and the mapping records T0 whose session exists: `session:{T0}` is gone afterwards (unless T0 is the token). `session:{token}` and `internalHermesUserID` hold the fresh id, `token` holds the new token, and the fresh id is returned. |
| Auth.RenameFailureAborts | auth/auth.go:93-98 | If the old token's session is absent or the RENAME fails in transport, the call returns the rename error naming both keys. The store is unchanged, so the mapping keeps its old token. |
| Auth.LaterWriteFailureKeepsEarlierWrites | auth/auth.go:112-133 | Provisioning branch: the HGET found no token and the SET succeeded. A failed mapping HSET returns that error and leaves the earlier writes in place, with no rollback. A failed `token` HSET leaves the session write alone. A failed `internalHermesUserID` HSET leaves the session write and the `token` field. |
| Auth.RotationWriteFailureKeepsEarlierWrites | auth/auth.go:90-133 | Rotation branch, after a successful RENAME: any later failure returns that write's error and keeps every earlier write, with no rollback. A failed HSET of the new token leaves the renamed store: `session:{T0}` moved to `session:{token}`, and the mapping still records T0. A failed SET leaves the rename and the new `token` field. A failed provisioning HSET also leaves `session:{token}` holding the fresh id. |
| AuthInvariant.InterruptedRotationBreaksWellFormed | auth/auth.go:90-133 | In a well-formed store, a rotation stopped by a failed HSET of the new token, or by a failed provisioning HSET after the SET, fails the call and leaves the store not well formed. In the first case the mapping names a token whose session is gone. In the second, the token's session holds the fresh id while the mapping still holds the old id. |
| AuthInvariant.ProvisionedWellFormed | auth/auth.go:109-133 | On a well-formed store, with an uncached token and a fresh id, the provisioning writes keep the store well formed. This holds with or without an earlier removal of the mapping's old session. |
| AuthInvariant.SuccessPreservesWellFormed | auth/auth.go:31-142 | Every successful call keeps the store well formed, given a fresh id and a session lookup that did not fail in transport. Well formed means: every mapping's token resolves to its internal id, and no two mappings share a token or an internal id. |
| AuthInvariant.RepeatedCheckHitsCache | auth/auth.go:39-43 | After a successful call, and when the second session GET does not fail in transport, the same token gets the same credentials from the cache and changes nothing, whatever the endpoint would answer. |
| AuthInvariant.RotationReplacesInternalId | auth/auth.go:90-136 | As written, on a well-formed store with a fresh id, when the session GET misses without a transport failure and no later store command fails: a new token for a known user returns the freshly drawn id, not the id the mapping held, and the mapping now records the new id. |
| AuthIntended.ReconcileIntended | auth/auth.go:19-28 | With the branches made exclusive, a successful reconciliation answers with the token as password and the client id as username, and `session:{token}` resolves to that client id. |
| AuthIntended.CheckAuthenticationIntended | auth/auth.go:19-28 | With the `else` restored, the call agrees with `CheckAuthentication` everywhere except reconciliation. A success still leaves `session:{token}` resolving to the returned id. |
| AuthIntended.IntendedRotationKeepsIdentity | auth/auth.go:23-25 | With the `else` restored, a new token for a known user returns the id the mapping held. The old session is gone, the new session resolves to that id, and the mapping records the new token with the same id. |
| AuthIntended.RotatedWellFormed | auth/auth.go:92-101 | Renaming a known user's session to an uncached token and recording the token keeps the store well formed. |
| AuthIntended.IntendedPreservesWellFormed | auth/auth.go:19-28 | On a well-formed store, with a fresh id and a session GET that did not fail in transport, every success of the corrected flow keeps the store well formed. |

## Findings

| source | as written | input that shows it | evidently intended | confidence | as-written member | corrected member |
|---|---|---|---|---|---|---|
| auth/auth.go:90-109 | The rotation branch has no `else`: after the RENAME and the HSET of the token, control falls through to minting a fresh id. The fresh id overwrites `session:{token}` and `internalHermesUserID` and is returned. | A well-formed store with `mapping:u` = {token: "t0", internalHermesUserID: "I"} and `session:t0` = "I". Token "t1", endpoint answers 200 with user id "u", fresh id "F" ≠ "I". The result is client id "F", and the mapping's internal id becomes "F". | The comment at auth/auth.go:23-28 says to mint an id only for an unknown user. A known user keeps the internal id that moved with the renamed session. | high (not executed) | AuthInvariant.RotationReplacesInternalId | AuthIntended.IntendedRotationKeepsIdentity |

The rest of the model is the code as written. `AuthIntended` restates only
the reconciliation step with the `else` restored. The rotation branch then
reads the id back from the renamed session (one more GET), because the code
never reads the old internal id itself.

## Left out

- The HTTP request to the authentication endpoint (auth/auth.go:46-65) and `RefreshConfig` are not modelled. The endpoint's answer is an input. A failing `http.NewRequest` and a failing `client.Do` are both modelled as `RequestFailed` with the error text.
- UUID generation (auth/auth.go:109) is not modelled. The drawn id is the input `freshId`. Its uniqueness is the `Fresh` precondition of the invariant lemmas.
- `fmt.Println` logging of errors is left out. It has no effect on the result or the store.
- The redigo connection, `NewRedis`, AUTH, `CloseConnection` and `Incr` are left out: they are connection management and a counter that the core never calls.
- Redis.GetKeys: the cursor sent with each SCAN is not modelled. The replies are given as a sequence, and the method requires that one of them ends the scan (SCAN's full-iteration guarantee). A server that never returns cursor 0 would keep the Go loop running forever.
- Redis.GetKeys: a reply with fewer than two elements would make the Go code panic on `arr[1]`, and this is not modelled. The cursor is not parsed in the model: a page carries its cursor as an integer. In the Go code a cursor that is not a number reads as 0, and a numeric cursor outside the 64-bit range reads as ±MaxInt64 (what `strconv.ParseInt` returns with its range error), so the loop goes on. A key list that does not parse reads as empty. Both follow from the ignored errors of `redisgo.Int` and `redisgo.Strings`.
- Error causes are rendered with the texts of the Redis server and the redigo client ("redigo: nil returned", "WRONGTYPE ...", "ERR no such key"), which are not part of this repository.
- AuthInvariant.SuccessPreservesWellFormed: this requires that the session GET did not fail in transport. After such a failure the code treats a cached token as new, and the lemma does not cover that case.
- AuthIntended.IntendedPreservesWellFormed: this also requires that the session GET did not fail in transport. After such a failure the corrected flow also treats a cached token as new. The token can then end up recorded by two mappings, and the lemma does not cover that case.
- Fault model: a store command that returns an error is modelled as one the server did not apply (the `Write` it returns holds the store unchanged). A write the server applied but whose reply was lost is not modelled. For example, a RENAME applied with its reply lost leaves `session:{T0}` moved while the call returns the error, so `Auth.RenameFailureAborts` does not speak about it.
- Blocking: neither the HTTP client (auth/auth.go:49) nor the Redis connection (models/redis.go:32) sets a timeout, so a call can wait forever. A call is modelled as a transition that always returns, so this is not represented.
- Concurrency between simultaneous calls is not modelled. Each call is a single sequential transition.
- The document store (models/mongodb.go), RabbitMQ (models/rabbitmq.go), process wiring (main/main.go), routing and handlers (router/), request validation (validation/), the HTTP response writer (vendor/) and the plain record types (models/conversations.go, models/mapping.go, models/env.go, utils/utils.go) are left out. They are I/O plumbing or field-copying records outside the authentication core.

=== FILE: auth.dfy ===
/**
 `CheckAuthentication`: map a bearer token to MQTT credentials, reconciling the
 session cache (`session:{token}` -> internal user id) and the identity mapping
 (`mapping:{originalUserID}` -> hash with fields `token` and `internalHermesUserID`).

 The call is a pure transition over the store. The authentication endpoint's reply,
 the freshly drawn UUID and the transport failures of individual store commands are
 inputs; the endpoint URL is fixed configuration and is not modelled.
 */
module Auth {
  import opened Wrappers
  import opened Redis
  import opened VerneMQ

  const NoTokenProvided := "No Token Provided"
  const InvalidToken := "Invalid Token"
  const TokenField := "token"
  const InternalIdField := "internalHermesUserID"

  const SessionPrefix := "session:"
  const MappingPrefix := "mapping:"

  function SessionKey(token: string): string
  {
    SessionPrefix + token
  }

  function MappingKey(originalUserID: string): string
  {
    MappingPrefix + originalUserID
  }

  /** The body of a 200 reply: `{"userID": ...}`, or something that does not decode. */
  datatype Body = UserJson(userID: string) | Undecodable

  /** What the authentication endpoint answered, or why the request did not complete. */
  datatype VerifierReply = RequestFailed(reason: string) | Response(status: int, body: Body)

  /** The decoded user id; a body that does not decode leaves the field empty. */
  function OriginalUserID(b: Body): string
  {
    match b
    case UserJson(u) => u
    case Undecodable => ""
  }

  /** The store commands the call may issue, in order. */
  datatype Step =
    | LookupSession       // GET session:{token}
    | LookupMapping       // HGET mapping:{uid} token
    | RenameSession       // RENAME session:{old} session:{token}
    | RotateToken         // HSET mapping:{uid} token {token}, rotation branch
    | StoreSession        // SET session:{token} {id}
    | StoreToken          // HSET mapping:{uid} token {token}
    | StoreInternalId     // HSET mapping:{uid} internalHermesUserID {id}

  /** The commands that fail in transport, with their error text. */
  type Outages = map<Step, string>

  function LinkAt(outages: Outages, step: Step): Link
  {
    if step in outages then Down(outages[step]) else Up
  }

  /** The returned credentials or error, and the store afterwards. */
  datatype Outcome = Outcome(result: Result<MQTTAuthInfos, string>, store: Store)

  lemma SessionKeyInjective(a: string, b: string)
    requires SessionKey(a) == SessionKey(b)
    ensures a == b
  {
    assert a == SessionKey(a)[|SessionPrefix|..];
    assert b == SessionKey(b)[|SessionPrefix|..];
  }

  /** The two key families never collide. */
  lemma SessionIsNotMapping(token: string, originalUserID: string)
    ensures SessionKey(token) != MappingKey(originalUserID)
  {
    assert SessionKey(token)[0] != MappingKey(originalUserID)[0];
  }

  /** The GET of `session:{token}` returned nothing (missing key, wrong type or transport error). */
  predicate Miss(store: Store, token: string, outages: Outages)
  {
    token != "" && Get(store, SessionKey(token), LinkAt(outages, LookupSession)).Failure?
  }

  /** The keys a call may write: the session of the token, the mapping, and the session of the mapping's token. */
  function WrittenKeys(store: Store, token: string, reply: VerifierReply): set<string>
  {
    if reply.RequestFailed? then {SessionKey(token)}
    else
      var mapping := MappingKey(OriginalUserID(reply.body));
      var prior := HGet(store, mapping, TokenField, Up);
      {SessionKey(token), mapping} + (if prior.Success? then {SessionKey(prior.value)} else {})
  }

  /** The store after all three provisioning writes succeed. */
  function Provisioned(store: Store, token: string, uid: string, freshId: string): Store
  {
    store[SessionKey(token) := Str(freshId)]
         [MappingKey(uid) := Hash(FieldsOf(store, MappingKey(uid))[TokenField := token][InternalIdField := freshId])]
  }

  /**
   The provisioning writes (auth/auth.go:109-138): cache the fresh id under the token,
   then set the mapping's `token` and `internalHermesUserID` fields, stopping at the
   first failure without undoing the earlier writes.
   */
  function Provision(store: Store, token: string, uid: string, freshId: string, outages: Outages): (out: Outcome)
    ensures out.result.Success? <==>
      && StoreSession !in outages && StoreToken !in outages && StoreInternalId !in outages
      && !(MappingKey(uid) in store && store[MappingKey(uid)].Str?)
    ensures out.result.Success? ==> out.result.value == NewMQTTAuthInfos(freshId, token)
  {
    SessionIsNotMapping(token, uid);
    var mapping := MappingKey(uid);
    var cached := Set(store, SessionKey(token), freshId, LinkAt(outages, StoreSession));
    if cached.err.Some? then Outcome(Failure(cached.err.value), cached.store)
    else
      var tokened := HSet(cached.store, mapping, TokenField, token, LinkAt(outages, StoreToken));
      if tokened.err.Some? then Outcome(Failure(tokened.err.value), tokened.store)
      else
        var minted := HSet(tokened.store, mapping, InternalIdField, freshId, LinkAt(outages, StoreInternalId));
        if minted.err.Some? then Outcome(Failure(minted.err.value), minted.store)
        else Outcome(Success(NewMQTTAuthInfos(freshId, token)), minted.store)
  }

  /**
   The reconciliation after a valid token (auth/auth.go:86-138): if the mapping names an
   old token, rename its session to the new token and record the new token; then, in
   every case, provision a fresh id.
   */
  function Reconcile(store: Store, token: string, uid: string, freshId: string, outages: Outages): (out: Outcome)
    ensures out.result.Success? ==> out.result.value == NewMQTTAuthInfos(freshId, token)
    ensures out.result.Success? ==> SessionKey(token) in out.store && out.store[SessionKey(token)] == Str(freshId)
  {
    var mapping := MappingKey(uid);
    match HGet(store, mapping, TokenField, LinkAt(outages, LookupMapping))
    case Failure(_) =>
      ProvisionWrites(store, token, uid, freshId, outages);
      Provision(store, token, uid, freshId, outages)
    case Success(oldToken) =>
      var renamed := Rename(store, SessionKey(oldToken), SessionKey(token), LinkAt(outages, RenameSession));
      if renamed.err.Some? then Outcome(Failure(renamed.err.value), renamed.store)
      else
        var retokened := HSet(renamed.store, mapping, TokenField, token, LinkAt(outages, RotateToken));
        if retokened.err.Some? then Outcome(Failure(retokened.err.value), retokened.store)
        else
          ProvisionWrites(retokened.store, token, uid, freshId, outages);
          Provision(retokened.store, token, uid, freshId, outages)
  }

  /** Where the front of the call leaves off: finished, or a valid token for a user id. */
  datatype Stage = Done(outcome: Outcome) | Verified(uid: string)

  /**
   The front of the call (auth/auth.go:33-84): the empty-token guard, the cache lookup
   and the dispatch on the endpoint's reply.
   */
  function Front(store: Store, token: string, reply: VerifierReply, outages: Outages): (st: Stage)
    ensures st.Done? ==> st.outcome.store == store
    ensures st.Verified? <==> Miss(store, token, outages) && reply.Response? && reply.status == 200
    ensures st.Verified? ==> st.uid == OriginalUserID(reply.body)
  {
    if token == "" then Done(Outcome(Failure(NoTokenProvided), store))
    else match Get(store, SessionKey(token), LinkAt(outages, LookupSession))
      case Success(cached) => Done(Outcome(Success(NewMQTTAuthInfos(cached, token)), store))
      case Failure(_) =>
        match reply
        case RequestFailed(reason) => Done(Outcome(Failure(reason), store))
        case Response(status, body) =>
          if status == 400 then Done(Outcome(Failure(InvalidToken), store))
          else if status == 200 then Verified(OriginalUserID(body))
          else Done(Outcome(Failure(InvalidToken), store))
  }

  /** `CheckAuthentication` (auth/auth.go:31-142) as a transition of the store. */
  function CheckAuthentication(store: Store, token: string, reply: VerifierReply, freshId: string, outages: Outages): (out: Outcome)
    // An empty token is refused before anything else happens.
    ensures token == "" ==> out == Outcome(Failure(NoTokenProvided), store)
    // A cached session answers at once, from the cache alone.
    ensures token != "" && LookupSession !in outages && SessionKey(token) in store && store[SessionKey(token)].Str? ==>
      out == Outcome(Success(MQTTAuthInfos(store[SessionKey(token)].bytes, store[SessionKey(token)].bytes, token)), store)
    // After a miss, a failed request is returned as is and every status but 200 is "Invalid Token".
    ensures Miss(store, token, outages) && reply.RequestFailed? ==> out == Outcome(Failure(reply.reason), store)
    ensures Miss(store, token, outages) && reply.Response? && reply.status != 200 ==>
      out == Outcome(Failure(InvalidToken), store)
    // Success always leaves the token's session resolving to the returned id.
    ensures out.result.Success? ==>
      && out.result.value.password == token
      && out.result.value.username == out.result.value.clientID
      && SessionKey(token) in out.store
      && out.store[SessionKey(token)] == Str(out.result.value.clientID)
    // Only the token's session, the mapping and the mapping's old session are ever written.
    ensures var w := WrittenKeys(store, token, reply); out.store - w == store - w
  {
    match Front(store, token, reply, outages)
    case Done(outcome) => outcome
    case Verified(uid) =>
      var out := Reconcile(store, token, uid, freshId, outages);
      ReconcileFrame(store, token, uid, freshId, outages);
      out
  }

  /** When provisioning succeeds, the store holds exactly the three writes. */
  lemma ProvisionWrites(store: Store, token: string, uid: string, freshId: string, outages: Outages)
    ensures Provision(store, token, uid, freshId, outages).result.Success? ==>
      Provision(store, token, uid, freshId, outages).store == Provisioned(store, token, uid, freshId)
    ensures SessionKey(token) in Provisioned(store, token, uid, freshId)
    ensures Provisioned(store, token, uid, freshId)[SessionKey(token)] == Str(freshId)
  {
    SessionIsNotMapping(token, uid);
    if Provision(store, token, uid, freshId, outages).result.Success? {
      var mapping := MappingKey(uid);
      var s1 := store[SessionKey(token) := Str(freshId)];
      assert FieldsOf(s1, mapping) == FieldsOf(store, mapping);
      var f2 := FieldsOf(store, mapping)[TokenField := token];
      var s2 := s1[mapping := Hash(f2)];
      assert HSet(s1, mapping, TokenField, token, Up).store == s2;
      assert FieldsOf(s2, mapping) == f2;
      assert HSet(s2, mapping, InternalIdField, freshId, Up).store == Provisioned(store, token, uid, freshId);
    }
  }

  /** Reconciliation writes only the token's session, the mapping and the old token's session. */
  lemma ReconcileFrame(store: Store, token: string, uid: string, freshId: string, outages: Outages)
    ensures var w := WrittenKeys(store, token, Response(200, UserJson(uid)));
      Reconcile(store, token, uid, freshId, outages).store - w == store - w
  {
    var w := WrittenKeys(store, token, Response(200, UserJson(uid)));
    var mapping := MappingKey(uid);
    var out := Reconcile(store, token, uid, freshId, outages);
    assert SessionKey(token) in w && mapping in w;
    match HGet(store, mapping, TokenField, LinkAt(outages, LookupMapping))
    case Failure(_) =>
      ProvisionFrame(store, token, uid, freshId, outages, w);
    case Success(oldToken) =>
      assert SessionKey(oldToken) in w;
      var renamed := Rename(store, SessionKey(oldToken), SessionKey(token), LinkAt(outages, RenameSession));
      RenameFrame(store, SessionKey(oldToken), SessionKey(token), LinkAt(outages, RenameSession), w);
      if renamed.err.None? {
        var retokened := HSet(renamed.store, mapping, TokenField, token, LinkAt(outages, RotateToken));
        HSetFrame(renamed.store, mapping, TokenField, token, LinkAt(outages, RotateToken), w);
        if retokened.err.None? {
          ProvisionFrame(retokened.store, token, uid, freshId, outages, w);
        }
      }
  }

  /** A RENAME touches only its two keys. */
  lemma RenameFrame(s: Store, oldKey: string, newKey: string, link: Link, w: set<string>)
    requires oldKey in w && newKey in w
    ensures Rename(s, oldKey, newKey, link).store - w == s - w
  {
  }

  /** An HSET touches only its key. */
  lemma HSetFrame(s: Store, key: string, field: string, value: string, link: Link, w: set<string>)
    requires key in w
    ensures HSet(s, key, field, value, link).store - w == s - w
  {
  }

  lemma ProvisionFrame(store: Store, token: string, uid: string, freshId: string, outages: Outages, w: set<string>)
    requires SessionKey(token) in w && MappingKey(uid) in w
    ensures Provision(store, token, uid, freshId, outages).store - w == store - w
  {
    var mapping := MappingKey(uid);
    var s1 := Set(store, SessionKey(token), freshId, LinkAt(outages, StoreSession));
    assert s1.store - w == store - w;
    if s1.err.None? {
      var s2 := HSet(s1.store, mapping, TokenField, token, LinkAt(outages, StoreToken));
      assert s2.store - w == store - w;
      if s2.err.None? {
        var s3 := HSet(s2.store, mapping, InternalIdField, freshId, LinkAt(outages, StoreInternalId));
        assert s3.store - w == store - w;
      }
    }
  }

  // ---------------------------------------------------------------------------
  // The paths through one call.

  /** None of the store commands after the session lookup fails in transport. */
  predicate ReconcileUp(outages: Outages)
  {
    && LookupMapping !in outages && RenameSession !in outages && RotateToken !in outages
    && StoreSession !in outages && StoreToken !in outages && StoreInternalId !in outages
  }

  /** The endpoint is consulted, and a fresh id drawn, only after the session lookup misses. */
  lemma VerifierOnlyAfterMiss(store: Store, token: string, reply1: VerifierReply, reply2: VerifierReply,
                              freshId1: string, freshId2: string, outages: Outages)
    requires !Miss(store, token, outages)
    ensures CheckAuthentication(store, token, reply1, freshId1, outages)
         == CheckAuthentication(store, token, reply2, freshId2, outages)
  {
  }

  /** A body that does not decode is treated as the user id "", so the key `mapping:` is used. */
  lemma UndecodableBodyIsEmptyUserID(store: Store, token: string, freshId: string, outages: Outages)
    ensures CheckAuthentication(store, token, Response(200, Undecodable), freshId, outages)
         == CheckAuthentication(store, token, Response(200, UserJson("")), freshId, outages)
    ensures MappingKey("") in WrittenKeys(store, token, Response(200, Undecodable))
  {
  }

  /**
   Provisioning: with no token recorded in the mapping (or a failed HGET) and every
   write succeeding, the token's session and both mapping fields hold the new id.
   */
  lemma ProvisionPath(store: Store, token: string, body: Body, freshId: string, outages: Outages)
    requires Miss(store, token, outages)
    requires HGet(store, MappingKey(OriginalUserID(body)), TokenField, LinkAt(outages, LookupMapping)).Failure?
    requires StoreSession !in outages && StoreToken !in outages && StoreInternalId !in outages
    requires !(MappingKey(OriginalUserID(body)) in store && store[MappingKey(OriginalUserID(body))].Str?)
    ensures var out := CheckAuthentication(store, token, Response(200, body), freshId, outages);
      var mapping := MappingKey(OriginalUserID(body));
      && out.result == Success(MQTTAuthInfos(freshId, freshId, token))
      && out.store == Provisioned(store, token, OriginalUserID(body), freshId)
      && out.store[SessionKey(token)] == Str(freshId)
      && mapping in out.store && out.store[mapping].Hash?
      && out.store[mapping].fields[TokenField] == token
      && out.store[mapping].fields[InternalIdField] == freshId
  {
    var uid := OriginalUserID(body);
    ProvisionWrites(store, token, uid, freshId, outages);
    SessionIsNotMapping(token, uid);
    assert TokenField != InternalIdField;
  }

  /**
   Rotation: the mapping's old token T0 has a session. That session is renamed to the new
   token (so `session:{T0}` is gone), the mapping records the new token, and then the
   code still mints a fresh id, overwriting the session and the mapping's internal id.
   */
  lemma RotationPath(store: Store, token: string, body: Body, freshId: string, outages: Outages)
    requires Miss(store, token, outages)
    requires ReconcileUp(outages)
    requires var mapping := MappingKey(OriginalUserID(body));
      && mapping in store && store[mapping].Hash? && TokenField in store[mapping].fields
      && SessionKey(store[mapping].fields[TokenField]) in store
    ensures var out := CheckAuthentication(store, token, Response(200, body), freshId, outages);
      var mapping := MappingKey(OriginalUserID(body));
      var t0 := store[mapping].fields[TokenField];
      && out.result == Success(MQTTAuthInfos(freshId, freshId, token))
      && out.store == Provisioned(store - {SessionKey(t0)}, token, OriginalUserID(body), freshId)
      && (t0 != token ==> SessionKey(t0) !in out.store)
      && out.store[SessionKey(token)] == Str(freshId)
      && out.store[mapping] == Hash(store[mapping].fields[TokenField := token][InternalIdField := freshId])
  {
    var uid := OriginalUserID(body);
    var mapping := MappingKey(uid);
    var t0 := store[mapping].fields[TokenField];
    RotateThenProvision(store, token, uid, freshId, outages);
    SessionIsNotMapping(t0, uid);
    SessionIsNotMapping(token, uid);
    var out := Provisioned(store - {SessionKey(t0)}, token, uid, freshId);
    assert FieldsOf(store - {SessionKey(t0)}, mapping) == store[mapping].fields;
    if t0 != token {
      if SessionKey(t0) == SessionKey(token) {
        SessionKeyInjective(t0, token);
      }
      assert SessionKey(t0) !in out;
    }
  }

  /** The store after the rotation branch's RENAME of `session:{t0}` and its HSET of the new token. */
  function Rotation(store: Store, token: string, uid: string, t0: string): Store
    requires SessionKey(t0) in store
  {
    (store - {SessionKey(t0)})[SessionKey(token) := store[SessionKey(t0)]]
                              [MappingKey(uid) := Hash(FieldsOf(store, MappingKey(uid))[TokenField := token])]
  }

  /** The rotation branch followed by provisioning, as one store transition. */
  lemma RotateThenProvision(store: Store, token: string, uid: string, freshId: string, outages: Outages)
    requires ReconcileUp(outages)
    requires var mapping := MappingKey(uid);
      && mapping in store && store[mapping].Hash? && TokenField in store[mapping].fields
      && SessionKey(store[mapping].fields[TokenField]) in store
    ensures Reconcile(store, token, uid, freshId, outages) ==
      Outcome(Success(NewMQTTAuthInfos(freshId, token)),
              Provisioned(store - {SessionKey(store[MappingKey(uid)].fields[TokenField])}, token, uid, freshId))
  {
    var mapping := MappingKey(uid);
    var fields := store[mapping].fields;
    var t0 := fields[TokenField];
    var sk0, sk := SessionKey(t0), SessionKey(token);
    SessionIsNotMapping(t0, uid);
    SessionIsNotMapping(token, uid);
    var renamed := (store - {sk0})[sk := store[sk0]];
    assert Rename(store, sk0, sk, Up).store == renamed;
    assert FieldsOf(renamed, mapping) == fields;
    var retokened := renamed[mapping := Hash(fields[TokenField := token])];
    assert HSet(renamed, mapping, TokenField, token, Up).store == retokened;
    ProvisionWrites(retokened, token, uid, freshId, outages);
    assert FieldsOf(retokened, mapping)[TokenField := token] == fields[TokenField := token];
    assert Provisioned(retokened, token, uid, freshId) == Provisioned(store - {sk0}, token, uid, freshId);
  }

  /**
   A failed RENAME (the old token's session is absent, or the command fails) ends the
   call with the rename error and nothing written: the mapping keeps its old token.
   */
  lemma RenameFailureAborts(store: Store, token: string, body: Body, freshId: string, outages: Outages, t0: string)
    requires Miss(store, token, outages)
    requires HGet(store, MappingKey(OriginalUserID(body)), TokenField, LinkAt(outages, LookupMapping)) == Success(t0)
    requires SessionKey(t0) !in store || RenameSession in outages
    ensures var out := CheckAuthentication(store, token, Response(200, body), freshId, outages);
      && out.store == store
      && out.result == Failure(RenameError(SessionKey(t0), SessionKey(token),
           if RenameSession in outages then Transport(outages[RenameSession]) else NoSuchKey))
  {
  }

  /**
   No rollback: when a provisioning write after the SET fails, the earlier writes stay in
   the store and the call returns that write's error.
   */
  lemma LaterWriteFailureKeepsEarlierWrites(store: Store, token: string, body: Body, freshId: string, outages: Outages)
    requires Miss(store, token, outages)
    requires HGet(store, MappingKey(OriginalUserID(body)), TokenField, LinkAt(outages, LookupMapping)).Failure?
    requires StoreSession !in outages
    requires !(MappingKey(OriginalUserID(body)) in store && store[MappingKey(OriginalUserID(body))].Str?)
    ensures var out := CheckAuthentication(store, token, Response(200, body), freshId, outages);
      var mapping := MappingKey(OriginalUserID(body));
      && (StoreToken in outages ==>
            && out.result == Failure(SetError(mapping, token, Transport(outages[StoreToken])))
            && out.store == store[SessionKey(token) := Str(freshId)])
      && (StoreToken !in outages && StoreInternalId in outages ==>
            && out.result == Failure(SetError(mapping, freshId, Transport(outages[StoreInternalId])))
            && out.store == store[SessionKey(token) := Str(freshId)]
                                 [mapping := Hash(FieldsOf(store, mapping)[TokenField := token])])
  {
    var uid := OriginalUserID(body);
    var mapping := MappingKey(uid);
    SessionIsNotMapping(token, uid);
    var s1 := store[SessionKey(token) := Str(freshId)];
    assert FieldsOf(s1, mapping) == FieldsOf(store, mapping);
  }

  /**
   No rollback in the rotation branch: once the RENAME has succeeded, a failure of any
   later write returns that write's error and leaves the rename in place. A failed HSET
   of the new token leaves the renamed store alone; a failed SET leaves the whole
   rotation; a failed provisioning HSET also leaves the fresh id cached under the token.
   */
  lemma RotationWriteFailureKeepsEarlierWrites(store: Store, token: string, body: Body, freshId: string,
                                               outages: Outages, t0: string)
    requires Miss(store, token, outages)
    requires HGet(store, MappingKey(OriginalUserID(body)), TokenField, LinkAt(outages, LookupMapping)) == Success(t0)
    requires RenameSession !in outages && SessionKey(t0) in store
    ensures var out := CheckAuthentication(store, token, Response(200, body), freshId, outages);
      var uid := OriginalUserID(body);
      var mapping := MappingKey(uid);
      var sk0, sk := SessionKey(t0), SessionKey(token);
      var rotated := Rotation(store, token, uid, t0);
      && (RotateToken in outages ==>
            && out.result == Failure(SetError(mapping, token, Transport(outages[RotateToken])))
            && out.store == (store - {sk0})[sk := store[sk0]])
      && (RotateToken !in outages && StoreSession in outages ==>
            && out.result == Failure(SetError(sk, freshId, Transport(outages[StoreSession])))
            && out.store == rotated)
      && (RotateToken !in outages && StoreSession !in outages && StoreToken in outages ==>
            && out.result == Failure(SetError(mapping, token, Transport(outages[StoreToken])))
            && out.store == rotated[sk := Str(freshId)])
      && (RotateToken !in outages && StoreSession !in outages && StoreToken !in outages && StoreInternalId in outages ==>
            && out.result == Failure(SetError(mapping, freshId, Transport(outages[StoreInternalId])))
            && out.store == rotated[sk := Str(freshId)])
  {
    RotationFailureStores(store, token, OriginalUserID(body), freshId, outages, t0);
  }

  /** The rotation branch's partial writes, at the level of `Reconcile`. */
  lemma RotationFailureStores(store: Store, token: string, uid: string, freshId: string, outages: Outages, t0: string)
    requires HGet(store, MappingKey(uid), TokenField, LinkAt(outages, LookupMapping)) == Success(t0)
    requires RenameSession !in outages && SessionKey(t0) in store
    ensures var out := Reconcile(store, token, uid, freshId, outages);
      var mapping := MappingKey(uid);
      var sk0, sk := SessionKey(t0), SessionKey(token);
      var rotated := Rotation(store, token, uid, t0);
      && (RotateToken in outages ==>
            && out.result == Failure(SetError(mapping, token, Transport(outages[RotateToken])))
            && out.store == (store - {sk0})[sk := store[sk0]])
      && (RotateToken !in outages && StoreSession in outages ==>
            && out.result == Failure(SetError(sk, freshId, Transport(outages[StoreSession])))
            && out.store == rotated)
      && (RotateToken !in outages && StoreSession !in outages && StoreToken in outages ==>
            && out.result == Failure(SetError(mapping, token, Transport(outages[StoreToken])))
            && out.store == rotated[sk := Str(freshId)])
      && (RotateToken !in outages && StoreSession !in outages && StoreToken !in outages && StoreInternalId in outages ==>
            && out.result == Failure(SetError(mapping, freshId, Transport(outages[StoreInternalId])))
            && out.store == rotated[sk := Str(freshId)])
  {
    var mapping := MappingKey(uid);
    var sk0, sk := SessionKey(t0), SessionKey(token);
    SessionIsNotMapping(t0, uid);
    SessionIsNotMapping(token, uid);
    var fields := store[mapping].fields;
    var renamed := (store - {sk0})[sk := store[sk0]];
    assert Rename(store, sk0, sk, Up).store == renamed;
    assert FieldsOf(renamed, mapping) == fields == FieldsOf(store, mapping);
    var rotated := Rotation(store, token, uid, t0);
    assert HSet(renamed, mapping, TokenField, token, Up).store == rotated;
    if RotateToken !in outages && StoreSession !in outages {
      var cached := rotated[sk := Str(freshId)];
      var f := fields[TokenField := token];
      assert FieldsOf(cached, mapping) == f;
      assert f[TokenField := token] == f;
      assert HSet(cached, mapping, TokenField, token, Up).store == cached;
    }
  }
}

=== FILE: auth_intended.dfy ===
/**
 The rotation the comment above `CheckAuthentication` describes (auth/auth.go:19-28):
 a new token for a known user renames the old session and records the new token, and
 only an unknown user gets a freshly drawn id. The code has no `else` after the rotation
 branch; this module puts it back. The rotation branch then answers with the id the
 renamed session holds, read with one more GET.
 */
module AuthIntended {
  import opened Wrappers
  import opened Redis
  import opened VerneMQ
  import opened Auth
  import opened AuthInvariant

  /**
   Reconciliation with exclusive branches: rotate a known user, provision an unknown one.
   `readBack` is the link of the extra GET of the renamed session, a command the code as
   written never issues.
   */
  function ReconcileIntended(store: Store, token: string, uid: string, freshId: string, outages: Outages,
                             readBack: Link): (out: Outcome)
    ensures out.result.Success? ==>
      && out.result.value == NewMQTTAuthInfos(out.result.value.clientID, token)
      && SessionKey(token) in out.store
      && out.store[SessionKey(token)] == Str(out.result.value.clientID)
  {
    var mapping := MappingKey(uid);
    match HGet(store, mapping, TokenField, LinkAt(outages, LookupMapping))
    case Failure(_) =>
      ProvisionWrites(store, token, uid, freshId, outages);
      Provision(store, token, uid, freshId, outages)
    case Success(oldToken) =>
      var renamed := Rename(store, SessionKey(oldToken), SessionKey(token), LinkAt(outages, RenameSession));
      if renamed.err.Some? then Outcome(Failure(renamed.err.value), renamed.store)
      else
        var retokened := HSet(renamed.store, mapping, TokenField, token, LinkAt(outages, RotateToken));
        if retokened.err.Some? then Outcome(Failure(retokened.err.value), retokened.store)
        else match Get(retokened.store, SessionKey(token), readBack)
          case Success(id) => Outcome(Success(NewMQTTAuthInfos(id, token)), retokened.store)
          case Failure(e) => Outcome(Failure(e), retokened.store)
  }

  /** `CheckAuthentication` with the missing `else` restored. */
  function CheckAuthenticationIntended(store: Store, token: string, reply: VerifierReply, freshId: string,
                                       outages: Outages, readBack: Link): (out: Outcome)
    ensures token == "" ==> out == Outcome(Failure(NoTokenProvided), store)
    ensures !Miss(store, token, outages) || reply.RequestFailed? || reply.status != 200 ==>
      out == CheckAuthentication(store, token, reply, freshId, outages)
    ensures out.result.Success? ==>
      && out.result.value.password == token
      && out.result.value.username == out.result.value.clientID
      && SessionKey(token) in out.store
      && out.store[SessionKey(token)] == Str(out.result.value.clientID)
  {
    match Front(store, token, reply, outages)
    case Done(outcome) => outcome
    case Verified(uid) =>
      ReconcileIntended(store, token, uid, freshId, outages, readBack)
  }

  /**
   The rotation keeps the identity: in a well-formed store, a new token for a known user
   returns the id the mapping already held, the old token's session no longer resolves,
   the new one resolves to that id, and the mapping records the new token and the same id.
   */
  lemma IntendedRotationKeepsIdentity(store: Store, token: string, body: Body, freshId: string, outages: Outages,
                                      readBack: Link)
    requires WellFormed(store)
    requires Miss(store, token, outages) && LookupSession !in outages
    requires LookupMapping !in outages && RenameSession !in outages && RotateToken !in outages
    requires readBack.Up?
    requires MappingKey(OriginalUserID(body)) in store
    ensures var out := CheckAuthenticationIntended(store, token, Response(200, body), freshId, outages, readBack);
      var mapping := MappingKey(OriginalUserID(body));
      var id := IdOf(store, mapping);
      && out.result == Success(MQTTAuthInfos(id, id, token))
      && SessionKey(TokenOf(store, mapping)) !in out.store
      && out.store[SessionKey(token)] == Str(id)
      && TokenOf(out.store, mapping) == token
      && IdOf(out.store, mapping) == id
  {
    var uid := OriginalUserID(body);
    var mk := MappingKey(uid);
    MappingKeyIsMappingKey(uid);
    assert Resolves(store, mk);
    var t0 := TokenOf(store, mk);
    var sk0, sk := SessionKey(t0), SessionKey(token);
    UncachedTokenIsUnmapped(store, token, mk);
    SessionIsNotMapping(t0, uid);
    SessionIsNotMapping(token, uid);
    if sk0 == sk {
      SessionKeyInjective(t0, token);
    }
    assert CheckAuthenticationIntended(store, token, Response(200, body), freshId, outages, readBack)
        == ReconcileIntended(store, token, uid, freshId, outages, readBack);
    RotationStore(store, token, uid, freshId, outages, readBack);
    var s' := Rotated(store, token, uid);
    assert s'[sk] == store[sk0] == Str(IdOf(store, mk));
    assert TokenOf(s', mk) == token && IdOf(s', mk) == IdOf(store, mk);
    assert sk0 !in s';
  }

  /** The restored flow keeps the store well formed on every success. */
  lemma IntendedPreservesWellFormed(store: Store, token: string, reply: VerifierReply, freshId: string,
                                    outages: Outages, readBack: Link)
    requires WellFormed(store)
    requires LookupSession !in outages
    requires Fresh(store, freshId)
    requires CheckAuthenticationIntended(store, token, reply, freshId, outages, readBack).result.Success?
    ensures WellFormed(CheckAuthenticationIntended(store, token, reply, freshId, outages, readBack).store)
  {
    if Miss(store, token, outages) {
      var uid := OriginalUserID(reply.body);
      var mk := MappingKey(uid);
      match HGet(store, mk, TokenField, LinkAt(outages, LookupMapping))
      case Failure(_) =>
        ProvisionWrites(store, token, uid, freshId, outages);
        ProvisionedWellFormed(store, store, token, uid, freshId);
      case Success(t0) =>
        assert CheckAuthenticationIntended(store, token, reply, freshId, outages, readBack)
            == ReconcileIntended(store, token, uid, freshId, outages, readBack);
        RotationSuccessStore(store, token, uid, freshId, outages, readBack);
        RotatedWellFormed(store, token, uid);
    }
  }

  /**
   When the rename and the token update go through, the rotation leaves the renamed
   session and the recorded token, and answers with the id the renamed session holds.
   */
  lemma RotationStore(store: Store, token: string, uid: string, freshId: string, outages: Outages, readBack: Link)
    requires HGet(store, MappingKey(uid), TokenField, LinkAt(outages, LookupMapping)).Success?
    requires RenameSession !in outages && RotateToken !in outages
    requires SessionKey(TokenOf(store, MappingKey(uid))) in store
    ensures var out := ReconcileIntended(store, token, uid, freshId, outages, readBack);
      var prior := store[SessionKey(TokenOf(store, MappingKey(uid)))];
      && out.store == Rotated(store, token, uid)
      && (readBack.Up? && prior.Str? ==> out.result == Success(NewMQTTAuthInfos(prior.bytes, token)))
  {
    var mk := MappingKey(uid);
    var t0 := TokenOf(store, mk);
    var sk0, sk := SessionKey(t0), SessionKey(token);
    SessionIsNotMapping(t0, uid);
    SessionIsNotMapping(token, uid);
    var renamed := Rename(store, sk0, sk, Up);
    assert renamed.store == (store - {sk0})[sk := store[sk0]];
    assert FieldsOf(renamed.store, mk) == FieldsOf(store, mk);
    assert Rotated(store, token, uid)[sk] == store[sk0];
  }

  /** A successful rotation leaves exactly the renamed session and the recorded token. */
  lemma RotationSuccessStore(store: Store, token: string, uid: string, freshId: string, outages: Outages, readBack: Link)
    requires HGet(store, MappingKey(uid), TokenField, LinkAt(outages, LookupMapping)).Success?
    requires ReconcileIntended(store, token, uid, freshId, outages, readBack).result.Success?
    ensures SessionKey(TokenOf(store, MappingKey(uid))) in store
    ensures ReconcileIntended(store, token, uid, freshId, outages, readBack).store == Rotated(store, token, uid)
  {
    var mk := MappingKey(uid);
    var t0 := TokenOf(store, mk);
    var sk0, sk := SessionKey(t0), SessionKey(token);
    SessionIsNotMapping(t0, uid);
    SessionIsNotMapping(token, uid);
    var renamed := Rename(store, sk0, sk, LinkAt(outages, RenameSession));
    assert renamed.err.None?;
    assert renamed.store == (store - {sk0})[sk := store[sk0]];
    assert FieldsOf(renamed.store, mk) == FieldsOf(store, mk);
  }

  /** The rotation branch's store, for the token the mapping records. */
  function Rotated(store: Store, token: string, uid: string): Store
    requires SessionKey(TokenOf(store, MappingKey(uid))) in store
  {
    Rotation(store, token, uid, TokenOf(store, MappingKey(uid)))
  }

  /** Renaming a known user's session to a new token and recording the token keeps the store well formed. */
  lemma RotatedWellFormed(store: Store, token: string, uid: string)
    requires WellFormed(store)
    requires MappingKey(uid) in store
    requires !(SessionKey(token) in store && store[SessionKey(token)].Str?)
    ensures var mk := MappingKey(uid);
      && TokenOf(store, mk) != token
      && SessionKey(TokenOf(store, mk)) in store
      && WellFormed(Rotated(store, token, uid))
  {
    var mk, sk := MappingKey(uid), SessionKey(token);
    MappingKeyIsMappingKey(uid);
    SessionKeyIsNotMappingKey(token);
    assert Resolves(store, mk);
    var t0 := TokenOf(store, mk);
    var sk0 := SessionKey(t0);
    SessionKeyIsNotMappingKey(t0);
    SessionIsNotMapping(t0, uid);
    SessionIsNotMapping(token, uid);
    assert t0 != token;
    if sk0 == sk {
      SessionKeyInjective(t0, token);
    }
    var s' := Rotated(store, token, uid);
    assert TokenOf(s', mk) == token && IdOf(s', mk) == IdOf(store, mk);
    assert s'[sk] == store[sk0];
    forall k | k in s' && IsMappingKey(k)
      ensures Resolves(s', k)
    {
      if k != mk {
        assert k in store && s'[k] == store[k];
        assert Resolves(store, k);
        var t := TokenOf(store, k);
        UncachedTokenIsUnmapped(store, token, k);
        assert t != t0;
        if SessionKey(t) == sk {
          SessionKeyInjective(t, token);
        }
        if SessionKey(t) == sk0 {
          SessionKeyInjective(t, t0);
        }
        SessionIsNotMapping(t, uid);
        assert s'[SessionKey(t)] == store[SessionKey(t)];
      }
    }
    forall k1, k2 | k1 in s' && k2 in s' && IsMappingKey(k1) && IsMappingKey(k2) && k1 != k2
      ensures TokenOf(s', k1) != TokenOf(s', k2) && IdOf(s', k1) != IdOf(s', k2)
    {
      if k1 == mk {
        assert k2 in store && s'[k2] == store[k2];
        UncachedTokenIsUnmapped(store, token, k2);
      } else if k2 == mk {
        assert k1 in store && s'[k1] == store[k1];
        UncachedTokenIsUnmapped(store, token, k1);
      } else {
        assert k1 in store && s'[k1] == store[k1];
        assert k2 in store && s'[k2] == store[k2];
      }
    }
  }
}

=== FILE: auth_invariant.dfy ===
/**
 What the two key families promise together, and how successful calls keep it.

 A store is well formed when every `mapping:{uid}` hash is complete, the session of
 its recorded token resolves to its internal id, and no two mappings share a token
 or an internal id (one external identity, one internal identity).
 */
module AuthInvariant {
  import opened Wrappers
  import opened Redis
  import opened VerneMQ
  import opened Auth

  predicate IsMappingKey(k: string)
  {
    |k| >= |MappingPrefix| && k[..|MappingPrefix|] == MappingPrefix
  }

  lemma MappingKeyIsMappingKey(uid: string)
    ensures IsMappingKey(MappingKey(uid))
  {
    assert MappingKey(uid)[..|MappingPrefix|] == MappingPrefix;
  }

  lemma SessionKeyIsNotMappingKey(token: string)
    ensures !IsMappingKey(SessionKey(token))
  {
    assert SessionKey(token)[..|MappingPrefix|][0] == SessionPrefix[0] != MappingPrefix[0];
  }

  /** The token a mapping records ("" if it records none). */
  function TokenOf(s: Store, k: string): string
  {
    if k in s && s[k].Hash? && TokenField in s[k].fields then s[k].fields[TokenField] else ""
  }

  /** The internal id a mapping records ("" if it records none). */
  function IdOf(s: Store, k: string): string
  {
    if k in s && s[k].Hash? && InternalIdField in s[k].fields then s[k].fields[InternalIdField] else ""
  }

  /** The mapping at k is complete and its token's session resolves to its internal id. */
  predicate Resolves(s: Store, k: string)
  {
    && k in s && s[k].Hash? && TokenField in s[k].fields && InternalIdField in s[k].fields
    && SessionKey(TokenOf(s, k)) in s && s[SessionKey(TokenOf(s, k))] == Str(IdOf(s, k))
  }

  ghost predicate WellFormed(s: Store)
  {
    && (forall k | k in s && IsMappingKey(k) :: Resolves(s, k))
    && (forall k1, k2 | k1 in s && k2 in s && IsMappingKey(k1) && IsMappingKey(k2) && k1 != k2 ::
          TokenOf(s, k1) != TokenOf(s, k2) && IdOf(s, k1) != IdOf(s, k2))
  }

  /** The id is no mapping's internal id (what a freshly drawn UUID guarantees). */
  ghost predicate Fresh(s: Store, id: string)
  {
    forall k | k in s && IsMappingKey(k) :: IdOf(s, k) != id
  }

  /** In a well-formed store, a token without a cached session is recorded by no mapping. */
  lemma UncachedTokenIsUnmapped(store: Store, token: string, k: string)
    requires WellFormed(store)
    requires !(SessionKey(token) in store && store[SessionKey(token)].Str?)
    requires k in store && IsMappingKey(k)
    ensures TokenOf(store, k) != token
  {
    assert Resolves(store, k);
  }

  /** Every mapping other than the written one still resolves after the provisioning writes. */
  lemma OtherMappingsResolve(store: Store, base: Store, token: string, uid: string, freshId: string, k: string)
    requires WellFormed(store)
    requires MappingKey(uid) in store ==> base == store || base == store - {SessionKey(TokenOf(store, MappingKey(uid)))}
    requires MappingKey(uid) !in store ==> base == store
    requires !(SessionKey(token) in store && store[SessionKey(token)].Str?)
    requires k in Provisioned(base, token, uid, freshId) && IsMappingKey(k) && k != MappingKey(uid)
    ensures Resolves(Provisioned(base, token, uid, freshId), k)
  {
    var mk, sk := MappingKey(uid), SessionKey(token);
    var s' := Provisioned(base, token, uid, freshId);
    SessionKeyIsNotMappingKey(token);
    assert k in store && s'[k] == store[k];
    assert Resolves(store, k);
    var t := TokenOf(store, k);
    assert TokenOf(s', k) == t && IdOf(s', k) == IdOf(store, k);
    UncachedTokenIsUnmapped(store, token, k);
    if SessionKey(t) == sk {
      SessionKeyInjective(t, token);
    }
    SessionIsNotMapping(t, uid);
    if base != store {
      MappingKeyIsMappingKey(uid);
      var t0 := TokenOf(store, mk);
      assert t != t0;
      if SessionKey(t) == SessionKey(t0) {
        SessionKeyInjective(t, t0);
      }
    }
    assert s'[SessionKey(t)] == store[SessionKey(t)];
  }

  /** The provisioning writes keep a store well formed, whether or not a rename came first. */
  lemma ProvisionedWellFormed(store: Store, base: Store, token: string, uid: string, freshId: string)
    requires WellFormed(store)
    requires MappingKey(uid) in store ==> base == store || base == store - {SessionKey(TokenOf(store, MappingKey(uid)))}
    requires MappingKey(uid) !in store ==> base == store
    requires !(SessionKey(token) in store && store[SessionKey(token)].Str?)
    requires Fresh(store, freshId)
    ensures WellFormed(Provisioned(base, token, uid, freshId))
  {
    var mk, sk := MappingKey(uid), SessionKey(token);
    var s' := Provisioned(base, token, uid, freshId);
    MappingKeyIsMappingKey(uid);
    SessionKeyIsNotMappingKey(token);
    SessionIsNotMapping(token, uid);
    assert TokenOf(s', mk) == token && IdOf(s', mk) == freshId;
    forall k | k in s' && IsMappingKey(k)
      ensures Resolves(s', k)
    {
      if k != mk {
        OtherMappingsResolve(store, base, token, uid, freshId, k);
      }
    }
    forall k1, k2 | k1 in s' && k2 in s' && IsMappingKey(k1) && IsMappingKey(k2) && k1 != k2
      ensures TokenOf(s', k1) != TokenOf(s', k2) && IdOf(s', k1) != IdOf(s', k2)
    {
      if k1 == mk {
        assert k2 in store && s'[k2] == store[k2];
        UncachedTokenIsUnmapped(store, token, k2);
      } else if k2 == mk {
        assert k1 in store && s'[k1] == store[k1];
        UncachedTokenIsUnmapped(store, token, k1);
      } else {
        assert k1 in store && s'[k1] == store[k1];
        assert k2 in store && s'[k2] == store[k2];
      }
    }
  }

  /**
   A successful call keeps the store well formed, provided the session lookup itself did
   not fail in transport and the drawn id is fresh.
   */
  lemma SuccessPreservesWellFormed(store: Store, token: string, reply: VerifierReply, freshId: string, outages: Outages)
    requires WellFormed(store)
    requires LookupSession !in outages
    requires Fresh(store, freshId)
    requires CheckAuthentication(store, token, reply, freshId, outages).result.Success?
    ensures WellFormed(CheckAuthentication(store, token, reply, freshId, outages).store)
  {
    if Miss(store, token, outages) {
      var uid := OriginalUserID(reply.body);
      var mk := MappingKey(uid);
      match HGet(store, mk, TokenField, LinkAt(outages, LookupMapping))
      case Failure(_) =>
        ProvisionWrites(store, token, uid, freshId, outages);
        ProvisionedWellFormed(store, store, token, uid, freshId);
      case Success(t0) =>
        MappingKeyIsMappingKey(uid);
        assert Resolves(store, mk);
        assert TokenOf(store, mk) == t0;
        RotateThenProvision(store, token, uid, freshId, outages);
        ProvisionedWellFormed(store, store - {SessionKey(t0)}, token, uid, freshId);
    }
  }

  /**
   Idempotence: after a successful call, the same token is answered from the cache with
   the same credentials and no further change, whatever the endpoint would now say.
   */
  lemma RepeatedCheckHitsCache(store: Store, token: string, reply1: VerifierReply, reply2: VerifierReply,
                               freshId1: string, freshId2: string, outages1: Outages, outages2: Outages)
    requires CheckAuthentication(store, token, reply1, freshId1, outages1).result.Success?
    requires LookupSession !in outages2
    ensures var first := CheckAuthentication(store, token, reply1, freshId1, outages1);
      CheckAuthentication(first.store, token, reply2, freshId2, outages2) == first
  {
  }

  /**
   The rotation as written does not keep the user's internal id: in a well-formed store,
   a new token for a known user returns the freshly drawn id, which differs from the id
   the mapping held, and the mapping now records the new id.
   */
  lemma RotationReplacesInternalId(store: Store, token: string, body: Body, freshId: string, outages: Outages)
    requires WellFormed(store)
    requires Fresh(store, freshId)
    requires Miss(store, token, outages) && LookupSession !in outages
    requires ReconcileUp(outages)
    requires MappingKey(OriginalUserID(body)) in store
    ensures var out := CheckAuthentication(store, token, Response(200, body), freshId, outages);
      var mapping := MappingKey(OriginalUserID(body));
      && out.result.Success?
      && out.result.value.clientID == freshId
      && out.result.value.clientID != IdOf(store, mapping)
      && IdOf(out.store, mapping) == freshId
  {
    var mk := MappingKey(OriginalUserID(body));
    MappingKeyIsMappingKey(OriginalUserID(body));
    assert Resolves(store, mk);
    RotationPath(store, token, body, freshId, outages);
  }

  /**
   The rotation's writes are not atomic. In a well-formed store, if the HSET of the new
   token fails after the RENAME, the mapping still names the old token, whose session is
   gone. If a provisioning HSET fails after the SET, the token's session holds the fresh
   id while the mapping still holds the old one. Either way the call fails and the store
   is no longer well formed.
   */
  lemma InterruptedRotationBreaksWellFormed(store: Store, token: string, body: Body, freshId: string, outages: Outages)
    requires WellFormed(store)
    requires Fresh(store, freshId)
    requires Miss(store, token, outages) && LookupSession !in outages
    requires LookupMapping !in outages && RenameSession !in outages
    requires MappingKey(OriginalUserID(body)) in store
    requires RotateToken in outages || (StoreSession !in outages && (StoreToken in outages || StoreInternalId in outages))
    ensures var out := CheckAuthentication(store, token, Response(200, body), freshId, outages);
      out.result.Failure? && !WellFormed(out.store)
  {
    var uid := OriginalUserID(body);
    var mk := MappingKey(uid);
    MappingKeyIsMappingKey(uid);
    assert Resolves(store, mk);
    var t0 := TokenOf(store, mk);
    RotationWriteFailureKeepsEarlierWrites(store, token, body, freshId, outages, t0);
    PartialRotationsBroken(store, token, uid, freshId);
  }

  /**
   The two partial rotations of a well-formed store: the rename alone, and the rotation
   with the fresh id cached but not yet recorded in the mapping. Neither is well formed.
   */
  lemma PartialRotationsBroken(store: Store, token: string, uid: string, freshId: string)
    requires WellFormed(store)
    requires Fresh(store, freshId)
    requires !(SessionKey(token) in store && store[SessionKey(token)].Str?)
    requires MappingKey(uid) in store
    ensures var mk := MappingKey(uid);
      var t0 := TokenOf(store, mk);
      var sk0, sk := SessionKey(t0), SessionKey(token);
      && sk0 in store
      && !WellFormed((store - {sk0})[sk := store[sk0]])
      && !WellFormed(Rotation(store, token, uid, t0)[sk := Str(freshId)])
  {
    var mk := MappingKey(uid);
    MappingKeyIsMappingKey(uid);
    assert Resolves(store, mk);
    var t0 := TokenOf(store, mk);
    var sk0, sk := SessionKey(t0), SessionKey(token);
    UncachedTokenIsUnmapped(store, token, mk);
    if sk0 == sk {
      SessionKeyInjective(t0, token);
    }
    SessionIsNotMapping(t0, uid);
    SessionIsNotMapping(token, uid);
    var renamed := (store - {sk0})[sk := store[sk0]];
    assert mk in renamed && renamed[mk] == store[mk];
    BrokenAt(renamed, mk);
    var cached := Rotation(store, token, uid, t0)[sk := Str(freshId)];
    assert IdOf(store, mk) != freshId;
    assert mk in cached && TokenOf(cached, mk) == token && IdOf(cached, mk) == IdOf(store, mk);
    assert cached[sk] == Str(freshId);
    BrokenAt(cached, mk);
  }

  /** One mapping that does not resolve makes a store ill formed. */
  lemma BrokenAt(s: Store, k: string)
    requires k in s && IsMappingKey(k) && !Resolves(s, k)
    ensures !WellFormed(s)
  {
  }
}

=== FILE: redis.dfy ===
/**
 The key/value-and-hash store behind `RedisInterface`, and the wrapper functions that
 issue one Redis command each and turn its reply into Go's `(data, error)` shape.

 Strings are byte strings: one `char` stands for one byte, so lengths and slices are
 byte lengths and byte slices, as in Go.
 */
module Redis {
  import opened Wrappers

  /** What a key holds: a plain string or a hash of field -> string. */
  datatype Value = Str(bytes: string) | Hash(fields: map<string, string>)

  type Store = map<string, Value>

  /** Whether the connection carries a command; `Down` fails it with a transport error. */
  datatype Link = Up | Down(reason: string)

  /** Why a command failed, as the redigo client reports it. */
  datatype Cause = NilReply | WrongType | NoSuchKey | Transport(reason: string)

  /** The text `%v` prints for a failure cause (server and client messages). */
  function CauseText(c: Cause): string
  {
    match c
    case NilReply => "redigo: nil returned"
    case WrongType => "WRONGTYPE Operation against a key holding the wrong kind of value"
    case NoSuchKey => "ERR no such key"
    case Transport(reason) => reason
  }

  /** The outcome of a write: Go's `error` (None is nil) and the store afterwards. */
  datatype Write = Write(err: Option<string>, store: Store)

  /** The outcome of `Exists`: Go's `(bool, error)`. */
  datatype Check = Check(ok: bool, err: Option<string>)

  /** Longest value an error message shows in full. */
  const ShownLimit := 15
  /** How many leading bytes of a longer value an error message keeps. */
  const ShownPrefix := 12

  /** The value as a failed SET or HSET shows it in its error message. */
  function Shown(v: string): (r: string)
    ensures |v| <= ShownLimit ==> r == v
    ensures |v| > ShownLimit ==> |r| == ShownLimit && r[..ShownPrefix] == v[..ShownPrefix] && r[ShownPrefix..] == "..."
    ensures r == v <==> |v| <= ShownLimit
    ensures |r| <= ShownLimit
  {
    if |v| > ShownLimit then v[0..ShownPrefix] + "..." else v
  }

  function GetError(key: string, c: Cause): string
  {
    "error getting key " + key + " : " + CauseText(c)
  }

  function SetError(key: string, value: string, c: Cause): string
  {
    "error setting key " + key + " to " + Shown(value) + " : " + CauseText(c)
  }

  function RenameError(oldKey: string, newKey: string, c: Cause): string
  {
    "error renaming key " + oldKey + " to " + newKey + " : " + CauseText(c)
  }

  function ExistsError(key: string, c: Cause): string
  {
    "error checking if key " + key + " exists : " + CauseText(c)
  }

  /** `Get`: GET of a key; a missing key or a hash is an error with nil data. */
  function Get(s: Store, key: string, link: Link): (r: Result<string, string>)
    ensures r.Success? <==> link.Up? && key in s && s[key].Str?
    ensures r.Success? ==> r.value == s[key].bytes
    ensures link.Down? ==> r == Failure(GetError(key, Transport(link.reason)))
    ensures link.Up? && key !in s ==> r == Failure(GetError(key, NilReply))
    ensures link.Up? && key in s && s[key].Hash? ==> r == Failure(GetError(key, WrongType))
  {
    if link.Down? then Failure(GetError(key, Transport(link.reason)))
    else if key !in s then Failure(GetError(key, NilReply))
    else match s[key]
      case Str(b) => Success(b)
      case Hash(_) => Failure(GetError(key, WrongType))
  }

  /** `HGet`: HGET of one field; a missing key or field, or a plain string, is an error with nil data. */
  function HGet(s: Store, key: string, field: string, link: Link): (r: Result<string, string>)
    ensures r.Success? <==> link.Up? && key in s && s[key].Hash? && field in s[key].fields
    ensures r.Success? ==> r.value == s[key].fields[field]
    ensures link.Down? ==> r == Failure(GetError(key, Transport(link.reason)))
    ensures link.Up? && (key !in s || (s[key].Hash? && field !in s[key].fields)) ==> r == Failure(GetError(key, NilReply))
    ensures link.Up? && key in s && s[key].Str? ==> r == Failure(GetError(key, WrongType))
  {
    if link.Down? then Failure(GetError(key, Transport(link.reason)))
    else if key !in s then Failure(GetError(key, NilReply))
    else match s[key]
      case Str(_) => Failure(GetError(key, WrongType))
      case Hash(f) => if field in f then Success(f[field]) else Failure(GetError(key, NilReply))
  }

  /** `Set`: SET overwrites whatever the key held. */
  function Set(s: Store, key: string, value: string, link: Link): (w: Write)
    ensures w.err.None? <==> link.Up?
    ensures w.err.None? ==> w.store == s[key := Str(value)]
    ensures w.err.Some? ==> w.store == s && w.err.value == SetError(key, value, Transport(link.reason))
  {
    if link.Down? then Write(Some(SetError(key, value, Transport(link.reason))), s)
    else Write(None, s[key := Str(value)])
  }

  /** The fields a key holds if it is a hash, and none if it is absent. */
  function FieldsOf(s: Store, key: string): map<string, string>
  {
    if key in s && s[key].Hash? then s[key].fields else map[]
  }

  /** `HSet`: HSET creates the hash if needed and overwrites the field; a plain string is WRONGTYPE. */
  function HSet(s: Store, key: string, field: string, value: string, link: Link): (w: Write)
    ensures w.err.None? <==> link.Up? && !(key in s && s[key].Str?)
    ensures w.err.None? ==> w.store == s[key := Hash(FieldsOf(s, key)[field := value])]
    ensures w.err.Some? ==> w.store == s
    ensures link.Down? ==> w.err == Some(SetError(key, value, Transport(link.reason)))
    ensures link.Up? && key in s && s[key].Str? ==> w.err == Some(SetError(key, value, WrongType))
  {
    if link.Down? then Write(Some(SetError(key, value, Transport(link.reason))), s)
    else if key in s && s[key].Str? then Write(Some(SetError(key, value, WrongType)), s)
    else Write(None, s[key := Hash(FieldsOf(s, key)[field := value])])
  }

  /** `Rename`: RENAME moves the value to the new key, overwriting it; an absent source is an error. */
  function Rename(s: Store, oldKey: string, newKey: string, link: Link): (w: Write)
    ensures w.err.None? <==> link.Up? && oldKey in s
    ensures w.err.None? ==> newKey in w.store && w.store[newKey] == s[oldKey]
    ensures w.err.None? && oldKey != newKey ==> oldKey !in w.store
    ensures w.err.None? ==> forall k :: k != oldKey && k != newKey ==> (k in w.store <==> k in s)
    ensures w.err.None? ==> forall k :: k != oldKey && k != newKey && k in s ==> w.store[k] == s[k]
    ensures w.err.Some? ==> w.store == s
    ensures link.Down? ==> w.err == Some(RenameError(oldKey, newKey, Transport(link.reason)))
    ensures link.Up? && oldKey !in s ==> w.err == Some(RenameError(oldKey, newKey, NoSuchKey))
  {
    if link.Down? then Write(Some(RenameError(oldKey, newKey, Transport(link.reason))), s)
    else if oldKey !in s then Write(Some(RenameError(oldKey, newKey, NoSuchKey)), s)
    else Write(None, (s - {oldKey})[newKey := s[oldKey]])
  }

  /** `Exists`: EXISTS as a boolean; on an error the boolean is false. */
  function Exists(s: Store, key: string, link: Link): (c: Check)
    ensures c.err.None? <==> link.Up?
    ensures c.err.None? ==> (c.ok <==> key in s)
    ensures c.err.Some? ==> !c.ok && c.err.value == ExistsError(key, Transport(link.reason))
  {
    if link.Down? then Check(false, Some(ExistsError(key, Transport(link.reason))))
    else Check(key in s, None)
  }

  /** `Delete`: DEL removes the key if present; the client error is returned unwrapped. */
  function Delete(s: Store, key: string, link: Link): (w: Write)
    ensures w.err.None? <==> link.Up?
    ensures w.err.None? ==> w.store == s - {key}
    ensures w.err.Some? ==> w.store == s && w.err.value == link.reason
  {
    if link.Down? then Write(Some(CauseText(Transport(link.reason))), s)
    else Write(None, s - {key})
  }

  /** A value written by SET is what GET then reads, and no other key changes. */
  lemma GetAfterSet(s: Store, key: string, other: string, value: string)
    ensures Get(Set(s, key, value, Up).store, key, Up) == Success(value)
    ensures other != key ==> Get(Set(s, key, value, Up).store, other, Up) == Get(s, other, Up)
  {
  }

  /** A field written by HSET is what HGET then reads; the hash's other fields are kept. */
  lemma HGetAfterHSet(s: Store, key: string, field: string, other: string, value: string)
    requires HSet(s, key, field, value, Up).err.None?
    ensures HGet(HSet(s, key, field, value, Up).store, key, field, Up) == Success(value)
    ensures other != field ==> HGet(HSet(s, key, field, value, Up).store, key, other, Up) == HGet(s, key, other, Up)
  {
  }

  /** After a successful RENAME the old key no longer resolves and the new key reads the old value. */
  lemma GetAfterRename(s: Store, oldKey: string, newKey: string)
    requires oldKey != newKey
    requires Rename(s, oldKey, newKey, Up).err.None?
    ensures Get(Rename(s, oldKey, newKey, Up).store, newKey, Up).Success? == Get(s, oldKey, Up).Success?
    ensures Get(s, oldKey, Up).Success? ==> Get(Rename(s, oldKey, newKey, Up).store, newKey, Up).value == Get(s, oldKey, Up).value
    ensures !Exists(Rename(s, oldKey, newKey, Up).store, oldKey, Up).ok
  {
  }

  /** After DEL the key no longer exists and GET of it is the nil-reply error. */
  lemma ExistsAfterDelete(s: Store, key: string)
    ensures !Exists(Delete(s, key, Up).store, key, Up).ok
    ensures Get(Delete(s, key, Up).store, key, Up) == Failure(GetError(key, NilReply))
  {
  }

  // ---------------------------------------------------------------------------
  // GetKeys: SCAN pages accumulated until the cursor comes back as 0.

  /**
   One SCAN reply: the next cursor (already parsed; a cursor that is not a number
   reads as 0) with the page of keys, or a failed command.
   */
  datatype ScanReply = Page(cursor: int, keys: seq<string>) | ScanFailed

  /** A reply that ends the iteration. */
  predicate Terminal(r: ScanReply)
  {
    r.ScanFailed? || r.cursor == 0
  }

  /** The server's replies end the iteration somewhere (SCAN's full-iteration guarantee). */
  ghost predicate Terminates(rs: seq<ScanReply>)
  {
    exists i :: 0 <= i < |rs| && Terminal(rs[i])
  }

  /** The index of the reply that ends the iteration. */
  function FirstTerminal(rs: seq<ScanReply>): (n: nat)
    requires Terminates(rs)
    ensures n < |rs| && Terminal(rs[n])
    ensures forall j :: 0 <= j < n ==> !Terminal(rs[j])
  {
    if Terminal(rs[0]) then 0
    else
      assert Terminates(rs[1..]) by {
        var i :| 0 <= i < |rs| && Terminal(rs[i]);
        assert rs[1..][i - 1] == rs[i];
      }
      1 + FirstTerminal(rs[1..])
  }

  /** The keys a reply carries (none for a failed one). */
  function PageKeys(r: ScanReply): seq<string>
  {
    if r.Page? then r.keys else []
  }

  /** All keys of the replies, in order. */
  function Concat(rs: seq<ScanReply>): seq<string>
  {
    if |rs| == 0 then [] else Concat(rs[..|rs| - 1]) + PageKeys(rs[|rs| - 1])
  }

  /** Appending one more reply appends its keys. */
  lemma ConcatStep(rs: seq<ScanReply>, i: nat)
    requires i < |rs|
    ensures Concat(rs[..i + 1]) == Concat(rs[..i]) + PageKeys(rs[i])
  {
    assert rs[..i + 1][..i] == rs[..i];
  }

  function ScanError(pattern: string): string
  {
    "error retrieving '" + pattern + "' keys"
  }

  /**
   `GetKeys`: issue SCAN until a reply returns cursor 0, appending each page in order.
   A failed SCAN returns the keys gathered so far together with the error.
   */
  method GetKeys(pattern: string, replies: seq<ScanReply>) returns (keys: seq<string>, err: Option<string>)
    requires Terminates(replies)
    ensures var n := FirstTerminal(replies);
      keys == Concat(replies[..n]) + PageKeys(replies[n])
    ensures err.Some? <==> replies[FirstTerminal(replies)].ScanFailed?
    ensures err.Some? ==> err.value == ScanError(pattern)
  {
    var n := FirstTerminal(replies);
    keys := [];
    var i := 0;
    while true
      invariant 0 <= i <= n
      invariant keys == Concat(replies[..i])
      decreases n - i
    {
      var r := replies[i];
      if r.ScanFailed? {
        assert Terminal(replies[i]) && i == n;
        return keys, Some(ScanError(pattern));
      }
      keys := keys + r.keys;
      if r.cursor == 0 {
        assert Terminal(replies[i]) && i == n;
        return keys, None;
      }
      ConcatStep(replies, i);
      i := i + 1;
    }
  }
}

=== FILE: vernemq.dfy ===
/**
 The broker-facing records: the VerneMQ ACL document and the MQTT credentials handed
 back to the broker, with the topic paths the ACL grants.

 The meaning of an ACL entry is given by MQTT topic-filter matching (section 4.7 of
 MQTT 3.1.1): a topic is split into levels at '/', "+" matches exactly one level and
 a final "#" matches the parent level and everything below it.
 */
module VerneMQ {

  const PrivateConversationTopicPath := "conversations/private/"
  const GroupConversationTopicPath := "conversations/group/"

  /** The ACL document VerneMQ reads for one client. */
  datatype VerneMQACL = VerneMQACL(
    mountpoint: string,
    clientID: string,
    username: string,
    passhash: string,
    publishACL: seq<string>,
    subscribeACL: seq<string>)

  /** The credentials returned for a checked token. */
  datatype MQTTAuthInfos = MQTTAuthInfos(clientID: string, username: string, password: string)

  /** `NewVerneMQACL`: publish on every private conversation, subscribe to the client's own. */
  function NewVerneMQACL(clientID: string, username: string, password: string): (acl: VerneMQACL)
    ensures acl.mountpoint == ""
    ensures acl.clientID == clientID && acl.username == username && acl.passhash == password
    ensures acl.subscribeACL == [PrivateConversationTopicPath + clientID]
    ensures acl.publishACL == [PrivateConversationTopicPath + "+"]
  {
    VerneMQACL("", clientID, username, password,
      [PrivateConversationTopicPath + "+"], [PrivateConversationTopicPath + clientID])
  }

  /** `NewMQTTAuthInfos`: the client id doubles as the username; the token is the password verbatim. */
  function NewMQTTAuthInfos(clientID: string, token: string): (a: MQTTAuthInfos)
    ensures a.clientID == clientID && a.username == clientID && a.password == token
  {
    MQTTAuthInfos(clientID, clientID, token)
  }

  /** The private conversation topic of a client. */
  function PrivateTopic(clientID: string): string
  {
    PrivateConversationTopicPath + clientID
  }

  /** The group conversation topic of a group. */
  function GroupTopic(group: string): string
  {
    GroupConversationTopicPath + group
  }

  // ---------------------------------------------------------------------------
  // Topic levels and filter matching.

  /** The levels of a topic name or filter: the text between '/' separators. */
  function Levels(t: string): (ls: seq<string>)
    ensures |ls| >= 1
    ensures forall i :: 0 <= i < |ls| ==> '/' !in ls[i]
  {
    if |t| == 0 then [""]
    else
      var rest := Levels(t[1..]);
      if t[0] == '/' then [""] + rest
      else [[t[0]] + rest[0]] + rest[1..]
  }

  /** Levels joined back with '/' separators. */
  function Join(ls: seq<string>): string
    requires |ls| >= 1
  {
    if |ls| == 1 then ls[0] else ls[0] + "/" + Join(ls[1..])
  }

  /** Matching of filter levels against topic levels. */
  predicate MatchLevels(f: seq<string>, t: seq<string>)
  {
    if |f| == 0 then |t| == 0
    else if f[0] == "#" then |f| == 1
    else |t| > 0 && (f[0] == "+" || f[0] == t[0]) && MatchLevels(f[1..], t[1..])
  }

  predicate TopicMatches(filter: string, topic: string)
  {
    MatchLevels(Levels(filter), Levels(topic))
  }

  /** Splitting a topic into levels and joining them back gives the topic again. */
  lemma {:induction false} JoinLevels(t: string)
    ensures Join(Levels(t)) == t
    decreases |t|
  {
    if |t| == 0 {
    } else {
      var rest := Levels(t[1..]);
      JoinLevels(t[1..]);
      if t[0] == '/' {
        assert Levels(t) == [""] + rest;
        assert Join(Levels(t)) == "" + "/" + Join(rest);
        assert t == [t[0]] + t[1..];
      } else if |rest| == 1 {
        assert Levels(t) == [[t[0]] + rest[0]];
        assert t == [t[0]] + t[1..];
      } else {
        var ls := Levels(t);
        assert ls == [[t[0]] + rest[0]] + rest[1..];
        assert ls[1..] == rest[1..];
        assert Join(rest) == rest[0] + "/" + Join(rest[1..]);
        assert Join(ls) == ([t[0]] + rest[0]) + "/" + Join(rest[1..]);
        assert t == [t[0]] + t[1..];
      }
    }
  }

  /** Levels are injective: equal level lists come from equal topics. */
  lemma LevelsInjective(a: string, b: string)
    requires Levels(a) == Levels(b)
    ensures a == b
  {
    JoinLevels(a);
    JoinLevels(b);
  }

  /** A topic without a separator is a single level. */
  lemma {:induction false} LevelsOfPlain(t: string)
    requires '/' !in t
    ensures Levels(t) == [t]
    decreases |t|
  {
    if |t| > 0 {
      assert '/' !in t[1..] by {
        forall i | 0 <= i < |t[1..]| ensures t[1..][i] != '/' {
          assert t[1..][i] == t[i + 1];
        }
      }
      LevelsOfPlain(t[1..]);
      assert t == [t[0]] + t[1..];
    }
  }

  /** A separator splits the levels of a topic: levels(a "/" b) = levels(a) ++ levels(b). */
  lemma {:induction false} LevelsOfJoin(a: string, b: string)
    requires '/' !in a
    ensures Levels(a + "/" + b) == [a] + Levels(b)
    decreases |a|
  {
    var t := a + "/" + b;
    if |a| == 0 {
      assert t == "/" + b;
      assert t[1..] == b;
    } else {
      assert '/' !in a[1..] by {
        forall i | 0 <= i < |a[1..]| ensures a[1..][i] != '/' {
          assert a[1..][i] == a[i + 1];
        }
      }
      LevelsOfJoin(a[1..], b);
      assert t[1..] == a[1..] + "/" + b;
      assert t[0] == a[0];
      assert [a[0]] + a[1..] == a;
    }
  }

  /** A topic containing a separator has at least two levels. */
  lemma {:induction false} LevelsOfSeparated(t: string)
    requires '/' in t
    ensures |Levels(t)| >= 2
    decreases |t|
  {
    if t[0] != '/' {
      assert '/' in t[1..] by {
        var i :| 0 <= i < |t| && t[i] == '/';
        assert t[1..][i - 1] == t[i];
      }
      LevelsOfSeparated(t[1..]);
    }
  }

  /** The levels of a private conversation topic. */
  lemma LevelsOfPrivateTopic(clientID: string)
    ensures Levels(PrivateTopic(clientID)) == ["conversations", "private"] + Levels(clientID)
  {
    var rest := "private" + "/" + clientID;
    assert PrivateTopic(clientID) == "conversations" + "/" + rest;
    LevelsOfJoin("conversations", rest);
    LevelsOfJoin("private", clientID);
  }

  /** The levels of a group conversation topic. */
  lemma LevelsOfGroupTopic(group: string)
    ensures Levels(GroupTopic(group)) == ["conversations", "group"] + Levels(group)
  {
    var rest := "group" + "/" + group;
    assert GroupTopic(group) == "conversations" + "/" + rest;
    LevelsOfJoin("conversations", rest);
    LevelsOfJoin("group", group);
  }

  /** A common literal first level is consumed by matching. */
  lemma MatchSameLevel(c: string, f: seq<string>, t: seq<string>)
    requires c != "#"
    ensures MatchLevels([c] + f, [c] + t) == MatchLevels(f, t)
  {
    assert ([c] + f)[1..] == f;
    assert ([c] + t)[1..] == t;
  }

  /** A literal first level that differs from the topic's fails the match. */
  lemma MatchOtherLevel(c: string, d: string, f: seq<string>, t: seq<string>)
    requires c != "#" && c != "+" && c != d
    ensures !MatchLevels([c] + f, [d] + t)
  {
  }

  /** A one-level filter: "#" matches anything, "+" any one level, a literal only itself. */
  lemma MatchOneLevel(c: string, t: seq<string>)
    ensures MatchLevels([c], t) <==> c == "#" || (|t| == 1 && (c == "+" || c == t[0]))
  {
    if c != "#" && |t| > 0 {
      assert [c][1..] == [];
    }
  }

  /**
   The publish entry of every ACL grants publishing on the private topic of any
   client whose id is a single topic level, and of no other.
   */
  lemma PublishReachesEveryPrivateTopic(owner: string, username: string, password: string, peer: string)
    ensures TopicMatches(NewVerneMQACL(owner, username, password).publishACL[0], PrivateTopic(peer))
            <==> '/' !in peer
  {
    var f := NewVerneMQACL(owner, username, password).publishACL[0];
    assert f == PrivateTopic("+");
    LevelsOfPrivateTopic("+");
    LevelsOfPrivateTopic(peer);
    LevelsOfPlain("+");
    var pl := Levels(peer);
    assert Levels(f) == ["conversations"] + (["private"] + ["+"]);
    assert Levels(PrivateTopic(peer)) == ["conversations"] + (["private"] + pl);
    MatchSameLevel("conversations", ["private"] + ["+"], ["private"] + pl);
    MatchSameLevel("private", ["+"], pl);
    MatchOneLevel("+", pl);
    if '/' in peer {
      LevelsOfSeparated(peer);
    } else {
      LevelsOfPlain(peer);
    }
  }

  /**
   The subscribe entry of a client whose id is one plain level (no separator, not a
   wildcard) matches exactly that client's own private topic.
   */
  lemma SubscribeOnlyOwnPrivateTopic(owner: string, username: string, password: string, peer: string)
    requires '/' !in owner && owner != "+" && owner != "#"
    ensures TopicMatches(NewVerneMQACL(owner, username, password).subscribeACL[0], PrivateTopic(peer))
            <==> peer == owner
  {
    var f := NewVerneMQACL(owner, username, password).subscribeACL[0];
    assert f == PrivateTopic(owner);
    LevelsOfPrivateTopic(owner);
    LevelsOfPrivateTopic(peer);
    LevelsOfPlain(owner);
    var pl := Levels(peer);
    assert Levels(f) == ["conversations"] + (["private"] + [owner]);
    assert Levels(PrivateTopic(peer)) == ["conversations"] + (["private"] + pl);
    MatchSameLevel("conversations", ["private"] + [owner], ["private"] + pl);
    MatchSameLevel("private", [owner], pl);
    MatchOneLevel(owner, pl);
    if MatchLevels([owner], pl) {
      assert pl == [owner];
      LevelsInjective(peer, owner);
    }
  }

  /** Neither entry of an ACL grants anything on a group conversation topic. */
  lemma NoGroupTopicGranted(owner: string, username: string, password: string, group: string)
    ensures !TopicMatches(NewVerneMQACL(owner, username, password).publishACL[0], GroupTopic(group))
    ensures !TopicMatches(NewVerneMQACL(owner, username, password).subscribeACL[0], GroupTopic(group))
  {
    var acl := NewVerneMQACL(owner, username, password);
    LevelsOfPrivateTopic("+");
    LevelsOfPrivateTopic(owner);
    LevelsOfGroupTopic(group);
    assert acl.publishACL[0] == PrivateTopic("+");
    assert acl.subscribeACL[0] == PrivateTopic(owner);
    var gl := Levels(group);
    assert Levels(GroupTopic(group)) == ["conversations"] + (["group"] + gl);
    var pub := ["private"] + Levels("+");
    var sub := ["private"] + Levels(owner);
    assert Levels(acl.publishACL[0]) == ["conversations"] + pub;
    assert Levels(acl.subscribeACL[0]) == ["conversations"] + sub;
    MatchSameLevel("conversations", pub, ["group"] + gl);
    MatchSameLevel("conversations", sub, ["group"] + gl);
    MatchOtherLevel("private", "group", Levels("+"), gl);
    MatchOtherLevel("private", "group", Levels(owner), gl);
  }
}

=== FILE: wrappers.dfy ===
/** Wrappers for Go's `(value, error)` pairs and nil-able values. */
module Wrappers {

  /** A value that may be absent (Go's nil slice or nil error). */
  datatype Option<+T> = None | Some(value: T)

  /** Either the value of a successful call or the error it returned. */
  datatype Result<+R, +E> = Success(value: R) | Failure(error: E)
}
